=== FILE: README.md ===
# flask-funktional in Dafny

A model of `flask_funktional.py`, a helper library for functional tests of
Flask applications. It covers four areas:

- **The test lifecycle** of `TestCase` (module `Lifecycle`). `__call__` does the following, in order:
  - resets the render log;
  - sends `pre_setup_signal`;
  - runs `_pre_setup`, then the test body, inside `try`/`finally`;
  - runs `_post_teardown` in the `finally`;
  - sends `post_teardown_signal`.

  `_pre_setup` installs three things:
  - the `TestResponse` response class and the optional `test_client_class`;
  - the `_patched_render` stub, when `render_templates` is off;
  - the `_on_template_render` listener.

  `_post_teardown` puts the original response class back, disconnects the
  listener and puts back the saved render function. It never undoes the
  `test_client_class` override. When `teardown_pre_hook` raises, it restores
  nothing at all. Both run the optional `hasattr`-detected hooks.

  Each run also yields a trace: the list of observable steps, each appended
  at the moment it happens. The properties of the call order are proved
  from the way the steps are composed.
- **Render capture and the template queries** (module `Templates`):
  - `_on_template_render`;
  - `assertTemplateRendered`;
  - `get_template_context`;
  - `assertTemplateContext`.
- **The HTTP status assertions** `assertStatus` and `assert200` … `assert405` (module `HttpAssertions`).
- **URL resolution and fixtures**:
  - `url_for`, `open` and `get` (module `Urls`);
  - the upload fixtures `random_string` and `temphttpfile` (module `UploadFixtures`).

Module `Outcomes` holds the shared `Option`, `Result` and `Outcome` types.

Several things that are not fixed inside the library become parameters of the model:
- the process-wide `signals_available` flag;
- the `templating._render` slot and the listener connection (the `World`);
- what a subclass defines (`TestClass`): how `flaskapp` resolves and whether each hook exists and returns or raises;
- the test body (the renders it triggers and whether it raises);
- the URL Flask builds and the configured `SERVER_NAME`;
- the random draws of `random.choice`.

The test body stands for line 185, the base class's `__call__`. That is
unittest's `run(result)`: it records a failing test in `result` and returns
normally. So a body that "raises" in the model is one from which an exception
escapes `run`.

Python's `try`/`finally` is modelled literally: `Exercise` is the `try` block, `Finish` the `finally` and the closing signal, and an exception from `_post_teardown` replaces the one from setup or from the body. The model keeps one consequence of this that looks unintended (see "## Findings"). On a fresh instance, an exception from `setup_pre_hook` is replaced by the `AttributeError` that line 234 raises, because `_ctx` is assigned only at line 198.

## Model

| member | source | states |
|---|---|---|
| HttpAssertions.AssertStatus | flask_funktional.py:62-75 | passes exactly when the response is present with the expected integer status; fails with "response is None" exactly for a missing response and with "not an int" exactly for a non-integer status; a mismatch reports the actual and the expected code, which differ |
| HttpAssertions.Assert200 | flask_funktional.py:77-84 | passes exactly when the response has status 200 |
| HttpAssertions.Assert302 | flask_funktional.py:86-93 | passes exactly when the response has status 302 |
| HttpAssertions.Assert400 | flask_funktional.py:95-102 | passes exactly when the response has status 400 |
| HttpAssertions.Assert401 | flask_funktional.py:104-111 | passes exactly when the response has status 401 |
| HttpAssertions.Assert403 | flask_funktional.py:113-120 | passes exactly when the response has status 403 |
| HttpAssertions.Assert404 | flask_funktional.py:122-129 | passes exactly when the response has status 404 |
| HttpAssertions.Assert405 | flask_funktional.py:131-138 | passes exactly when the response has status 405 |
| HttpAssertions.FixedCodeHelpers | flask_funktional.py:77-138 | each of `assert200` … `assert405` behaves exactly as `assertStatus` with its fixed code, including which failure it reports |
| Templates.OnTemplateRender | flask_funktional.py:295-299 | the listener appends exactly one record, the rendered template with its context, at the end of the log and keeps everything before it |
| Templates.ScanRendered | flask_funktional.py:314-316 | the loop over the log finds a match exactly when some recorded template has the given name |
| Templates.AssertTemplateRendered | flask_funktional.py:305-317 | raises `RuntimeError` without signals; with signals, passes exactly when some record's template has the name, and otherwise raises `AssertionError` |
| Templates.FirstWith | flask_funktional.py:333-335 | the loop stops at the earliest record whose context defines the name; if it finds none, no record defines it |
| Templates.EarliestUnique | flask_funktional.py:333-335 | the earliest record defining a name is unique |
| Templates.GetTemplateContext | flask_funktional.py:320-336 | raises `RuntimeError` without signals; with signals, raises `ContextVariableDoesNotExist` exactly when no record defines the name, and otherwise returns the value from the earliest record that defines it; being a pure function of the log, repeated calls agree |
| Templates.AssertTemplateContext | flask_funktional.py:338-349 | never lets `ContextVariableDoesNotExist` escape; fails with `RuntimeError` exactly without signals; with signals it either passes or fails with `AssertionError`, passing exactly when the earliest value equals the expected one, so a missing variable and a mismatch are both test failures |
| Templates.ContextStableUnderAppend | flask_funktional.py:295-299 | records appended after a variable was found do not change what `get_template_context` returns for it |
| Templates.RenderedStableUnderAppend | flask_funktional.py:295-299 | appending records never makes a passing `assertTemplateRendered` fail |
| Lifecycle.MonkeyPatch | flask_funktional.py:301-303 | the render slot holds `_patched_render` and `_true_render` holds what the slot held before; no other attribute of the instance changes and the listener is untouched |
| Lifecycle.PreSetup | flask_funktional.py:191-225 | setup returns exactly when the pre-hook returns, `flaskapp` resolves and the post-hook returns; it names which of the three raised; once an app is resolved, it has the test response class and the client override, and its original response class is saved; the patch happens exactly when `render_templates` is off after the pre-hook; the listener is connected exactly when signals are available; nothing process-wide changes before the install point; the trace gains exactly the steps performed, in the order they happen; when the pre-hook returns, `_post_teardown` will find the attributes it reads |
| Lifecycle.Render | flask_funktional.py:141-149 | one render through the slot: the log gains exactly this render's record when signals are available and the listener is connected, and is unchanged otherwise; the output is `""` exactly when the slot holds `_patched_render`, and otherwise the slot's function renders the template |
| Lifecycle.RunRenders | flask_funktional.py:141-149 | one output per render; with signals and a connected listener the log gains exactly the render records in invocation order, otherwise it is unchanged; the patched slot yields `""` for every render, a genuine one yields real output |
| Lifecycle.Teardown | flask_funktional.py:227-247 | a raising pre-hook, a missing `_ctx` or a missing `_orig_response_class` stops teardown before any restore; the pre-hook's exception is reported as such, and a missing attribute as `AttributeError`; otherwise the original response class is put back, the listener is disconnected when signals are available, the render slot gets `_true_render` if one was saved, and only the post-hook can then raise, with its own exception; `_true_render`, `_orig_response_class`, `render_templates` and the log are never changed; the trace gains exactly the steps performed, in the order they happen |
| Lifecycle.Restore | flask_funktional.py:237-247 | once past line 234: the app alone changes on the instance, getting back its original response class; the listener is disconnected when signals are available; the render slot gets `_true_render` if one was saved; the post-hook's exception is the only one possible; the trace gains exactly the restore steps performed, in program order |
| Lifecycle.Begin | flask_funktional.py:179-184 | the log is reset; setup returns exactly when the pre-hook returns, `flaskapp` resolves and the post-hook returns; the listener is connected exactly when it already was or an app is resolved with signals available; once an app is resolved it is the installed one (original response class swapped for `TestResponse`), and when the pre-hook also turned `render_templates` off the slot holds `_patched_render` and `_true_render` the slot's previous function, while otherwise the slot and `_true_render` are untouched; when the pre-hook returns, teardown will find the attributes it reads; the trace holds exactly the pre-setup signal (with signals) and the setup steps performed |
| Lifecycle.Exercise | flask_funktional.py:179-185 | the `try` block: afterwards the log holds exactly the body's render records when signals are available and setup returned, and is empty otherwise; the body sees one output per render when setup returned and none otherwise; nothing leaves the block when setup and the body return, the body's exception when setup returned and the body raised, and a setup exception otherwise; the app, the listener, the render slot and `_true_render` are as `Begin` states them; the trace holds exactly the steps the `try` block performs, the body exactly when setup returned, all before any teardown step |
| Lifecycle.Finish | flask_funktional.py:186-189 | the `finally` and the closing signal: the log and the body's outputs are kept; the trace gains exactly the teardown steps performed and, when signals are available and nothing propagated, `post_teardown_signal`, keeping an ascending trace ascending |
| Lifecycle.Call | flask_funktional.py:174-189 | the render log after the run holds exactly the body's render records when signals are available and setup returned, and is empty otherwise, whatever it held before |
| Lifecycle.CallRestoresSlots | flask_funktional.py:174-189 | for a fresh instance whose teardown pre-hook returns, the process-wide render slot and the listener are as before the test, whatever the body does |
| Lifecycle.CallRestoresApp | flask_funktional.py:227-244 | once an app was resolved and the teardown pre-hook returns, the app gets its original response class back, the listener is disconnected, and the render slot gets back `_true_render` (a stale one from an earlier run when this run did not patch) |
| Lifecycle.CallLeaksWhenTeardownHookRaises | flask_funktional.py:231-232 | a raising teardown pre-hook leaves the test response class, the listener and the patched render installed, and propagates |
| Lifecycle.CallKeepsClientOverride | flask_funktional.py:210-211 | the `test_client_class` override is never undone |
| Lifecycle.CallPropagates | flask_funktional.py:183-187 | nothing propagates exactly when setup, the body and both teardown hooks return; an exception escaping the body propagates unless a teardown hook raises. A failing test is not such an exception: unittest's `run` records it in `result` and returns |
| Lifecycle.CallReportsSetupError | flask_funktional.py:183-187 | when `_pre_setup` raises after its pre-hook returned and both teardown hooks return, its exception propagates: the `flaskapp` factory's, or else `setup_post_hook`'s |
| Lifecycle.CallMasksSetupPreHookError | flask_funktional.py:195-234 | on a fresh instance, when `setup_pre_hook` raises, what propagates is the `AttributeError` of line 234, not the hook's exception (unless `teardown_pre_hook` raises) |
| Lifecycle.CallReportsSetupPreHookError | flask_funktional.py:195-198 | with `app` and `_ctx` already assigned, the exception of `setup_pre_hook` propagates when both teardown hooks return |
| Lifecycle.CallReportsTeardownPreHookError | flask_funktional.py:231-232 | a raising `teardown_pre_hook` is what propagates, whatever setup and the body did |
| Lifecycle.CallRenderOutputs | flask_funktional.py:216-219 | the body sees one output per render when setup returned; all of them are `""` when the pre-hook turned `render_templates` off, and otherwise, when the slot held a genuine render function before the test, all are real renders by it |
| Lifecycle.CallSendsPreSetupSignal | flask_funktional.py:181-182 | `pre_setup_signal` is sent exactly when signals are available |
| Lifecycle.CallRunsBody | flask_funktional.py:183-185 | the test body runs exactly when `_pre_setup` returned |
| Lifecycle.CallCallsSetupPreHook | flask_funktional.py:195-196 | `setup_pre_hook` is called exactly when the class defines it |
| Lifecycle.CallCallsSetupPostHook | flask_funktional.py:195-225 | `setup_post_hook` is called exactly when it is defined, the pre-hook returned and `flaskapp` resolved |
| Lifecycle.CallSwapsResponseClass | flask_funktional.py:195-208 | the response class is swapped exactly when the pre-hook returned and `flaskapp` resolved |
| Lifecycle.CallPatchesRender | flask_funktional.py:195-219 | `render_template` is patched exactly when an app was resolved and `setup_pre_hook` turned `render_templates` off |
| Lifecycle.CallConnectsListener | flask_funktional.py:195-222 | the listener is connected exactly when an app was resolved and signals are available |
| Lifecycle.CallCallsTeardownPreHook | flask_funktional.py:183-187 | `teardown_pre_hook` is called exactly when it is defined, whatever setup and the body did, because `_post_teardown` runs in `finally` |
| Lifecycle.CallSendsPostTeardownSignal | flask_funktional.py:183-189 | `post_teardown_signal` is sent exactly when signals are available and nothing propagated; a failing test does not propagate, because `run` records it in `result` |
| Lifecycle.CallRestoresResponseClass | flask_funktional.py:237-238 | for a fresh instance whose teardown pre-hook returns, the response class is restored exactly when an app was resolved |
| Lifecycle.CallDisconnectsListener | flask_funktional.py:240-241 | for a fresh instance whose teardown pre-hook returns, the listener is disconnected exactly when signals are available and `setup_pre_hook` returned, even when `flaskapp` raised before it was connected |
| Lifecycle.CallRestoresRender | flask_funktional.py:243-244 | for a fresh instance whose teardown pre-hook returns, `render_template` is restored exactly when it was patched |
| Lifecycle.CallCallsTeardownPostHook | flask_funktional.py:246-247 | for a fresh instance whose teardown pre-hook returns, `teardown_post_hook` is called exactly when it is defined and `setup_pre_hook` returned |
| Lifecycle.CallTraceAscends | flask_funktional.py:174-189 | because each step appends itself as it runs, and setup, body and teardown run one after the other, the trace of every run lists its steps in strictly ascending program order |
| Lifecycle.CallTraceOrder | flask_funktional.py:174-189 | each step of `__call__` happens at most once and in program order; `pre_setup_signal` comes first exactly when signals are available; `post_teardown_signal`, when sent, comes last |
| Lifecycle.CallInstallsPaired | flask_funktional.py:206-244 | for a fresh instance whose teardown pre-hook returns, whatever the body does: the response class is restored exactly when it was swapped, the render exactly when it was patched, and a connected listener is disconnected |
| Urls.FindFirst | flask_funktional.py:277 | finds the earliest occurrence of the separator at or after the start index, or reports that none exists |
| Urls.Partition | flask_funktional.py:277 | `str.partition` raises `ValueError` exactly for an empty separator; the three parts put back together give the string; either the separator starts at the first occurrence, or it is absent and the string comes back whole |
| Urls.UrlFor | flask_funktional.py:264-280 | without `SERVER_NAME`, exactly the bare URL; with an empty server name, `ValueError`; otherwise always a `(base, path)` pair |
| Urls.UrlForSplitsAfterServerName | flask_funktional.py:276-280 | a pair with a base splits the URL right after the first occurrence of the server name; base followed by path is the URL; the path is non-empty |
| Urls.UrlForWithoutBase | flask_funktional.py:276-279 | the base is `None` exactly when the server name is missing from the URL or first occurs at its very end; when it is missing, the path is the URL; when it first occurs at the end, the path followed by the server name is the URL |
| Urls.UnpackAsWritten | flask_funktional.py:287 | a pair unpacks as is; a bare string unpacks only if it has exactly two characters, as its first and second character |
| Urls.Unpack | flask_funktional.py:287 | the intended unpacking: a pair as is, a bare URL as the path with no base |
| Urls.OpenAsWritten | flask_funktional.py:286-290 | `open` as written: without `SERVER_NAME` it succeeds exactly for a two-character URL; with `SERVER_NAME` set it behaves exactly as the intended `open`; the only error it raises is `ValueError`; `follow_redirects` defaults to true |
| Urls.OpenAsWrittenFailsWithoutServerName | flask_funktional.py:287 | `open` of `/index` without `SERVER_NAME` raises `ValueError` |
| Urls.OpenAsWrittenSplitsTwoCharacterUrl | flask_funktional.py:287 | `open` of `/a` without `SERVER_NAME` requests `a` under base `/` |
| Urls.Open | flask_funktional.py:286-290 | the evidently intended `open`, which line 287 does not implement: it fails exactly for an empty server name, and without `SERVER_NAME` it requests the URL itself with no base; `follow_redirects` defaults to true |
| Urls.OpenAddressesUrl | flask_funktional.py:264-290 | the intended `open` addresses the URL Flask built: base followed by path is the URL; without a base, the path is the URL minus the server name when that name first occurs at the URL's end, and the URL itself otherwise |
| Urls.Get | flask_funktional.py:282-287 | `get` as written, through the unpacking of line 287: without `SERVER_NAME` it succeeds exactly for a two-character URL; with `SERVER_NAME` set it behaves exactly as the intended `get`; the only error it raises is `ValueError`; the method is `GET` and `follow_redirects` defaults to true |
| Urls.GetFailsWithoutServerName | flask_funktional.py:282-287 | `get` of `/index` without `SERVER_NAME` raises `ValueError` |
| Urls.GetIntended | flask_funktional.py:282-290 | the evidently intended `get`: it fails exactly for an empty server name, and without `SERVER_NAME` it issues a `GET` for the URL itself with no base |
| Urls.GetIntendedAddressesUrl | flask_funktional.py:264-290 | the intended `get` issues a `GET` for the URL Flask built: base followed by path is the URL, or without a base the path is the URL, minus a server name that first occurs at its end |
| UploadFixtures.Spell | flask_funktional.py:447 | one character per draw, each the alphabet's character at the drawn index |
| UploadFixtures.AlphabetIsAlphanumeric | flask_funktional.py:357 | `letters + digits` holds exactly the ASCII letters and digits |
| UploadFixtures.EveryAlphanumericStringIsSpelled | flask_funktional.py:446-447 | every alphanumeric string can come out of `random_string` |
| UploadFixtures.RandomChars | flask_funktional.py:446-447 | `size` characters (none for a negative size), all ASCII letters or digits |
| UploadFixtures.RandomStringAsWritten | flask_funktional.py:446-447 | the result is text of length `size` (zero if negative) whose `k`-th character is the alphabet's character at the `k`-th draw, so an ASCII letter or digit |
| UploadFixtures.RandomBytes | flask_funktional.py:446-447 | the result is a byte string of length `size` (zero if negative) whose `k`-th character is the alphabet's character at the `k`-th draw, so an ASCII letter or digit |
| UploadFixtures.Wrap | flask_funktional.py:443 | succeeds exactly for byte data, giving that data, the filename and the data's length; missing or text data raises `TypeError` |
| UploadFixtures.TempHttpFileAsWritten | flask_funktional.py:431-443 | without data the call always raises `TypeError`, whatever the size; with data given it behaves exactly as the intended fixture |
| UploadFixtures.TempHttpFileAsWrittenRejectsGeneratedData | flask_funktional.py:441-443 | `temphttpfile(size=3)` raises `TypeError` |
| UploadFixtures.TempHttpFile | flask_funktional.py:431-443 | raises exactly when data is missing and `size` is falsy, or when the data is text; the fixture's size is its content's length and its filename is the one given; byte data is used as is; generated data has the requested length and is alphanumeric |

## Left out

- The JSON response mixin (`JsonResponseMixin.json`) and `_make_response_cls` beyond the identity of the class it builds. They only delegate to `json.loads` and class creation.
- `httpfile`: file-system I/O.
- The upload client, request and stream classes (`UploadFlaskClient`, `UploadRequest`, `FileUploadIO`, `UploadTestCase`). They are thin wrappers over Werkzeug.
- The blinker signal dispatch itself. Sending `pre_setup_signal`/`post_teardown_signal` is a trace event, and `template_rendered` reaches only this test's listener. `pre_setup_signal.send(self)` (line 182) hands the instance to arbitrary receivers before the `try`; the model assumes they neither change the instance (a receiver setting `render_templates = False` would also cause a patch, so `CallPatchesRender` holds only under this assumption) nor raise (which would skip setup and teardown alike).
- The base test case's own `__call__` (`FlaskTestCase.__call__`, line 185) is not part of this model. It is unittest's `run(result)`, which records a failing or erroring test in `result` and returns normally. The test body stands for it, and `RaisesError` stands only for an exception that escapes `run`, such as `KeyboardInterrupt`. A failing test is `Succeeds` in the model and still gets `post_teardown_signal`.
- The application object as process-wide state. The `World` holds only the render slot and the listener connection. When `flaskapp` is a shared `Flask` instance, its `response_class` and `test_client_class` are process-wide too. The model returns the changed app in the run's instance, so a leak (a raising teardown pre-hook, or the client override) reaches a later test only if that test is given the returned app.
- The test client that `_pre_setup` creates (`self.client`) and the `_ctx` push and pop, which are commented out in the source.
- Renders triggered from inside the hooks, and hook effects other than assigning `render_templates` in `setup_pre_hook` and returning or raising. The hooks are arbitrary user code.
- A `flaskapp` that resolves to something other than an application object. `self.app.response_class` would raise `AttributeError`, and the model resolves to an application or a raising factory only.
- Flask's own `url_for` and the application config lookup. The built URL and `SERVER_NAME` are inputs.
- Urls.UrlFor: `len(path) is 0` is modelled as `== 0`. CPython caches small integers, so the identity test behaves as equality.
- HttpAssertions.AssertStatus: Python's `bool` is a subclass of `int`, and in Python 2 `long` is not. A status code's type is abstracted to "an `int` or not".
- Templates.AssertTemplateContext: values are compared with Dafny's equality, not Python's `==`. Cross-type equalities such as `3 == 3.0` or `1 == True`, a `NaN` that differs from itself, and user-defined `__eq__` are not modelled.
- The assertion messages' texts. Only the kind of failure is modelled.
- Python's string representation beyond characters. Strings are `seq<char>`, and only the byte/text distinction that `temphttpfile` depends on is modelled.
- UploadFixtures.TempHttpFile: `random.choice` is an arbitrary index into the alphabet supplied as input, so the distribution of generated data is not modelled.

## Findings

| source | as written | input that shows it | evidently intended | confidence | as-written member | corrected member |
|---|---|---|---|---|---|---|
| flask_funktional.py:287 | `base_url, url = self.url_for(...)` unpacks the result of `url_for`, which is a bare string when `SERVER_NAME` is unset | `open` of `/index` with no `SERVER_NAME`: unpacking a six-character string raises `ValueError`; `/a` becomes base `/` and path `a` | a bare URL is requested as is, with no base URL | high, not executed | Urls.OpenAsWrittenFailsWithoutServerName | Urls.OpenAddressesUrl |
| flask_funktional.py:282-287 | `get` calls `open`, so it inherits the unpacking of line 287 | `get` of `/index` with no `SERVER_NAME` raises `ValueError` | a bare URL is requested with `GET` as is, with no base URL | high, not executed | Urls.GetFailsWithoutServerName | Urls.GetIntendedAddressesUrl |
| flask_funktional.py:234 | `_post_teardown` reads `self._ctx`, which line 198 assigns only after `setup_pre_hook` has returned | a fresh test whose `setup_pre_hook` raises: line 234 raises `AttributeError`, which replaces the hook's exception | the hook's exception is reported | medium, not executed | Lifecycle.CallMasksSetupPreHookError | Lifecycle.CallReportsSetupPreHookError |
| flask_funktional.py:442-447 | `random_string` joins with `""`, which is text under `from __future__ import unicode_literals`; `BytesIO` of text raises `TypeError` in Python 2 | `temphttpfile(size=3)` raises `TypeError` | generated fixture data is a byte string of `size` alphanumeric characters | medium, not executed | UploadFixtures.TempHttpFileAsWrittenRejectsGeneratedData | UploadFixtures.TempHttpFile |

=== FILE: http_assertions.dfy ===
/**
 The status-code assertions of `HttpAssertionsMixin`: `assertStatus` checks, in
 this order, that the response is not `None`, that its `status_code` is an
 `int`, and that it equals the expected code; `assert200` ... `assert405` are
 `assertStatus` with a fixed code.
 */
module HttpAssertions {
  import opened Outcomes

  /** The `status_code` attribute of a response: an `int`, or a value of some other type. */
  datatype StatusCode = IntStatus(code: int) | NonIntStatus

  /** A response as far as the assertions look at it. */
  datatype Response = Response(statusCode: StatusCode)

  /** Which of the three checks of `assertStatus` raised its `AssertionError`. */
  datatype StatusFailure =
    | ResponseIsNone
    | StatusNotInt
    | StatusMismatch(actual: int, expected: int)

  /** True iff `response` carries the integer status `code`. */
  predicate HasStatus(response: Option<Response>, code: int) {
    response.Some? && response.value.statusCode == IntStatus(code)
  }

  /** `assertStatus(response, status_code)`. */
  function AssertStatus(response: Option<Response>, expected: int): (v: Outcome<StatusFailure>)
    ensures v.Pass? <==> HasStatus(response, expected)
    ensures v == Fail(ResponseIsNone) <==> response.None?
    ensures v == Fail(StatusNotInt) <==> response.Some? && response.value.statusCode.NonIntStatus?
    ensures v.Fail? && v.error.StatusMismatch? ==>
              && response == Some(Response(IntStatus(v.error.actual)))
              && v.error.expected == expected
              && v.error.actual != expected
  {
    match response
    case None => Fail(ResponseIsNone)
    case Some(r) =>
      match r.statusCode
      case NonIntStatus => Fail(StatusNotInt)
      case IntStatus(c) => if c == expected then Pass else Fail(StatusMismatch(c, expected))
  }

  function Assert200(response: Option<Response>): (v: Outcome<StatusFailure>)
    ensures v.Pass? <==> HasStatus(response, 200)
  {
    AssertStatus(response, 200)
  }

  function Assert302(response: Option<Response>): (v: Outcome<StatusFailure>)
    ensures v.Pass? <==> HasStatus(response, 302)
  {
    AssertStatus(response, 302)
  }

  function Assert400(response: Option<Response>): (v: Outcome<StatusFailure>)
    ensures v.Pass? <==> HasStatus(response, 400)
  {
    AssertStatus(response, 400)
  }

  function Assert401(response: Option<Response>): (v: Outcome<StatusFailure>)
    ensures v.Pass? <==> HasStatus(response, 401)
  {
    AssertStatus(response, 401)
  }

  function Assert403(response: Option<Response>): (v: Outcome<StatusFailure>)
    ensures v.Pass? <==> HasStatus(response, 403)
  {
    AssertStatus(response, 403)
  }

  function Assert404(response: Option<Response>): (v: Outcome<StatusFailure>)
    ensures v.Pass? <==> HasStatus(response, 404)
  {
    AssertStatus(response, 404)
  }

  function Assert405(response: Option<Response>): (v: Outcome<StatusFailure>)
    ensures v.Pass? <==> HasStatus(response, 405)
  {
    AssertStatus(response, 405)
  }

  /** Each fixed-code helper is `assertStatus` with its code, failure for failure. */
  lemma FixedCodeHelpers(response: Option<Response>)
    ensures Assert200(response) == AssertStatus(response, 200)
    ensures Assert302(response) == AssertStatus(response, 302)
    ensures Assert400(response) == AssertStatus(response, 400)
    ensures Assert401(response) == AssertStatus(response, 401)
    ensures Assert403(response) == AssertStatus(response, 403)
    ensures Assert404(response) == AssertStatus(response, 404)
    ensures Assert405(response) == AssertStatus(response, 405)
  {
  }
}

=== FILE: lifecycle.dfy ===
/**
 The per-test lifecycle of `TestCase`: `__call__` resets the render log,
 sends `pre_setup_signal`, runs `_pre_setup` and the test body inside a
 `try`, runs `_post_teardown` in the `finally`, and sends
 `post_teardown_signal` only when nothing propagated.

 Process-wide state is the `World`: the `templating._render` slot and whether
 this test's `_on_template_render` listener is connected to
 `template_rendered`. The resolved application carries its own
 `response_class` slot. The test instance keeps the attributes set by the
 lifecycle (`rendered_templates`, `render_templates`, `app`,
 `_orig_response_class`, `_true_render`).
 */
module Lifecycle {
  import opened Outcomes
  import opened Templates

  /**
   Identity of a response class; `TestResponse(c)` is the subclass
   `_make_response_cls(c)` builds.
   */
  datatype ResponseClass = ResponseClass(id: nat) | TestResponse(base: ResponseClass)

  /** The application's `test_client_class`. */
  datatype ClientClass = FlaskClient | CustomClient(id: nat)

  /** The two application slots the lifecycle writes. */
  datatype App = App(responseClass: ResponseClass, testClientClass: ClientClass)

  /**
   How `flaskapp` supplies the application: an object used as is (lines 199-200
   and 203-204), or a callable that returns one or raises (lines 201-202).
   */
  datatype AppSource = AppInstance(app: App) | AppFactory(made: Option<App>)

  /** Whether an optional hook returns or raises. */
  datatype HookResult = Returns | Raises

  /** An optional hook method found by `hasattr`. */
  datatype Hook = Absent | Present(result: HookResult)

  /** `setup_pre_hook`, which may assign `render_templates` before it returns or raises. */
  datatype PreHook = NoPreHook | PreHook(setsRenderTemplates: Option<bool>, result: HookResult)

  /** What a `TestCase` subclass defines. */
  datatype TestClass = TestClass(
    flaskapp: AppSource,
    setupPreHook: PreHook,
    setupPostHook: Hook,
    teardownPreHook: Hook,
    teardownPostHook: Hook,
    testClientClass: Option<ClientClass>)

  /** The `templating._render` slot: some genuine render function, or `_patched_render`. */
  datatype RenderFn = TrueRender(id: nat) | PatchedRender

  /** Process-wide slots. */
  datatype World = World(render: RenderFn, listenerConnected: bool)

  /** The `app` attribute (set together with `_ctx` at line 198): not yet set, `None`, or an app. */
  datatype AppAttr = Unset | NoApp | HasApp(app: App)

  /** The attributes of a test instance the lifecycle reads and writes. */
  datatype Instance<V> = Instance(
    renderedTemplates: seq<RenderRecord<V>>,
    renderTemplates: bool,
    app: AppAttr,
    origResponseClass: Option<ResponseClass>,
    trueRender: Option<RenderFn>)

  /** The hook that raised. */
  datatype Stage = SetupPre | SetupPost | TeardownPre | TeardownPost

  /**
   What a lifecycle step can raise: a hook, the `flaskapp` factory, the test
   body, or the interpreter itself on a missing attribute.
   */
  datatype Exc = HookRaised(stage: Stage) | FlaskappRaised | BodyRaised | Builtin(error: PyError)

  /**
   The observable steps of `__call__`, declared in the order the code can
   perform them: the pre-setup signal, the five steps of `_pre_setup`, the
   body, the five steps of `_post_teardown`, the post-teardown signal.
   */
  datatype Event =
    | PreSetupSignal
    | SetupPreHookCalled
    | ResponseClassSwapped
    | RenderPatched
    | ListenerConnected
    | SetupPostHookCalled
    | BodyRan
    | TeardownPreHookCalled
    | ResponseClassRestored
    | ListenerDisconnected
    | RenderRestored
    | TeardownPostHookCalled
    | PostTeardownSignal

  const EventCount: nat := 13

  /** The position of a step in `__call__`. */
  function Ordinal(e: Event): (k: nat)
    ensures k < EventCount
  {
    match e
    case PreSetupSignal => 0
    case SetupPreHookCalled => 1
    case ResponseClassSwapped => 2
    case RenderPatched => 3
    case ListenerConnected => 4
    case SetupPostHookCalled => 5
    case BodyRan => 6
    case TeardownPreHookCalled => 7
    case ResponseClassRestored => 8
    case ListenerDisconnected => 9
    case RenderRestored => 10
    case TeardownPostHookCalled => 11
    case PostTeardownSignal => 12
  }

  /** The steps performed so far, oldest first: `Then(t, e)` is `t` followed by `e`. */
  datatype Trace = Start | Then(before: Trace, last: Event)

  /** Step `e` is recorded in `t`. */
  predicate Occurs(t: Trace, e: Event) {
    match t
    case Start => false
    case Then(before, last) => last == e || Occurs(before, e)
  }

  /** The steps of `t` come in strictly ascending program order, all before step `k`. */
  predicate Before(t: Trace, k: nat) {
    match t
    case Start => true
    case Then(before, last) => Ordinal(last) < k && Before(before, Ordinal(last))
  }

  /** `t` followed by step `e` when that step ran. */
  function Log(t: Trace, ran: bool, e: Event): (r: Trace)
    ensures forall x :: Occurs(r, x) <==> Occurs(t, x) || (ran && x == e)
    ensures Before(t, Ordinal(e)) ==> Before(r, Ordinal(e) + 1)
  {
    if ran then Then(t, e) else t
  }

  /** The steps of `t` as a sequence, oldest first. */
  function Events(t: Trace): (s: seq<Event>)
  {
    match t
    case Start => []
    case Then(before, last) => Events(before) + [last]
  }

  /** Each event occurs at most once, and in the order of `__call__`. */
  predicate InProgramOrder(s: seq<Event>) {
    forall i, j :: 0 <= i < j < |s| ==> Ordinal(s[i]) < Ordinal(s[j])
  }

  /** A step is recorded exactly when it is in the sequence of steps. */
  lemma {:induction false} OccursInEvents(t: Trace, e: Event)
    ensures Occurs(t, e) <==> e in Events(t)
  {
    match t
    case Start =>
    case Then(before, last) =>
      OccursInEvents(before, e);
      assert Events(t) == Events(before) + [last];
  }

  /** A trace ascending below step `k` lists its steps in program order, all before `k`. */
  lemma {:induction false} BeforeInOrder(t: Trace, k: nat)
    requires Before(t, k)
    ensures InProgramOrder(Events(t))
    ensures forall i :: 0 <= i < |Events(t)| ==> Ordinal(Events(t)[i]) < k
  {
    match t
    case Start =>
    case Then(before, last) =>
      BeforeInOrder(before, Ordinal(last));
      var s := Events(t);
      assert s == Events(before) + [last];
      forall i, j | 0 <= i < j < |s| ensures Ordinal(s[i]) < Ordinal(s[j]) {
        assert s[i] == Events(before)[i];
        if j < |s| - 1 {
          assert s[j] == Events(before)[j];
        }
      }
      forall i | 0 <= i < |s| ensures Ordinal(s[i]) < k {
        if i < |s| - 1 {
          assert s[i] == Events(before)[i];
        }
      }
  }

  /** What a render returns: real output of a genuine render function, or `""`. */
  datatype RenderOutput = RenderedBy(fn: nat, template: Template) | EmptyString

  /**
   How line 185 ends. The body is unittest's `run(result)`, which records a
   failing or erroring test in `result` and returns normally, so such a test
   `Succeeds` here; `RaisesError` stands only for an exception that escapes
   `run`, such as `KeyboardInterrupt`.
   */
  datatype BodyOutcome = Succeeds | RaisesError

  /**
   The test body: the renders it triggers, each given as the template and
   context that `template_rendered` reports, then whether an exception escapes it.
   */
  datatype Body<V> = Body(renders: seq<RenderRecord<V>>, outcome: BodyOutcome)

  /**
   The state after `_pre_setup` or `_post_teardown`, the trace extended by
   the steps it performed, and what it raised.
   */
  datatype Phase<V> = Phase(inst: Instance<V>, world: World, trace: Trace, raised: Option<Exc>)

  /**
   The state after `__call__`, the trace of the steps it performed, the
   render outputs the body saw, and what propagated.
   */
  datatype Run<V> = Run(
    inst: Instance<V>,
    world: World,
    trace: Trace,
    outputs: seq<RenderOutput>,
    raised: Option<Exc>)

  // --- configuration predicates ---------------------------------------------

  /** The application `flaskapp` resolves to, or `None` when the factory raises. */
  function Resolve(source: AppSource): Option<App> {
    match source
    case AppInstance(a) => Some(a)
    case AppFactory(m) => m
  }

  predicate PreHookReturns(cls: TestClass) {
    cls.setupPreHook.NoPreHook? || cls.setupPreHook.result == Returns
  }

  /** `_pre_setup` reaches line 206 (the response-class swap). */
  predicate ReachesInstall(cls: TestClass) {
    PreHookReturns(cls) && Resolve(cls.flaskapp).Some?
  }

  /** `_pre_setup` returns normally. */
  predicate SetupSucceeds(cls: TestClass) {
    ReachesInstall(cls) && cls.setupPostHook != Present(Raises)
  }

  /** `setup_pre_hook` turns `render_templates` off. */
  predicate PatchRequested(cls: TestClass) {
    cls.setupPreHook.PreHook? && cls.setupPreHook.setsRenderTemplates == Some(false)
  }

  /**
   The attributes `_post_teardown` reads exist: `_ctx` was assigned (line
   198, together with `app`), and `_orig_response_class` too whenever `app`
   is an application.
   */
  predicate Prepared<V>(inst: Instance<V>) {
    !inst.app.Unset? && (inst.app.HasApp? ==> inst.origResponseClass.Some?)
  }

  /** A fresh test instance: `_pre_setup` never ran on it. */
  predicate FreshInstance<V>(inst: Instance<V>) {
    inst.app.Unset? && inst.trueRender.None?
  }

  // --- setup ------------------------------------------------------------------

  /** `_make_response_cls` and the optional `test_client_class` override, lines 206-211. */
  function Install(cls: TestClass, a: App): App {
    App(TestResponse(a.responseClass),
        match cls.testClientClass case Some(c) => c case None => a.testClientClass)
  }

  /** `_monkey_patch_render_template`, lines 301-303. */
  function MonkeyPatch<V>(inst: Instance<V>, world: World): (r: (Instance<V>, World))
    ensures r.1.render == PatchedRender
    ensures r.0.trueRender == Some(world.render)
    ensures r.0 == inst.(trueRender := r.0.trueRender)
    ensures r.1.listenerConnected == world.listenerConnected
  {
    (inst.(trueRender := Some(world.render)), world.(render := PatchedRender))
  }

  /** The instance after `setup_pre_hook` (lines 195-196), which may assign `render_templates`. */
  function AfterPreHook<V>(cls: TestClass, inst: Instance<V>): Instance<V> {
    match cls.setupPreHook
    case PreHook(Some(b), _) => inst.(renderTemplates := b)
    case _ => inst
  }

  /** Step `e` is one that `_pre_setup` performs. */
  predicate SetupPerforms<V>(signals: bool, cls: TestClass, inst: Instance<V>, e: Event) {
    match e
    case SetupPreHookCalled => cls.setupPreHook.PreHook?
    case ResponseClassSwapped => ReachesInstall(cls)
    case RenderPatched => ReachesInstall(cls) && !AfterPreHook(cls, inst).renderTemplates
    case ListenerConnected => ReachesInstall(cls) && signals
    case SetupPostHookCalled => ReachesInstall(cls) && cls.setupPostHook.Present?
    case _ => false
  }

  /**
   `_pre_setup`, lines 191-225. It extends `trace` as it goes: the pre-hook
   call, the response-class swap, the render patch, the listener connection
   and the post-hook call, each when it happens.
   */
  function PreSetup<V>(signals: bool, cls: TestClass, inst: Instance<V>, world: World, trace: Trace)
    : (s: Phase<V>)
    ensures s.raised.None? <==> SetupSucceeds(cls)
    ensures s.raised == Some(HookRaised(SetupPre)) <==> !PreHookReturns(cls)
    ensures s.raised == Some(FlaskappRaised) <==> PreHookReturns(cls) && Resolve(cls.flaskapp).None?
    ensures s.raised == Some(HookRaised(SetupPost)) <==> ReachesInstall(cls) && cls.setupPostHook == Present(Raises)
    ensures s.inst.renderedTemplates == inst.renderedTemplates
    ensures s.inst.renderTemplates == AfterPreHook(cls, inst).renderTemplates
    ensures ReachesInstall(cls) ==>
              && s.inst.app == HasApp(Install(cls, Resolve(cls.flaskapp).value))
              && s.inst.origResponseClass == Some(Resolve(cls.flaskapp).value.responseClass)
              && s.world.listenerConnected == (signals || world.listenerConnected)
    ensures !ReachesInstall(cls) ==>
              && s.world == world
              && s.inst.trueRender == inst.trueRender
              && s.inst.origResponseClass == inst.origResponseClass
              && s.inst.app == (if PreHookReturns(cls) then NoApp else inst.app)
    ensures ReachesInstall(cls) && !s.inst.renderTemplates ==>
              s.world.render == PatchedRender && s.inst.trueRender == Some(world.render)
    ensures !(ReachesInstall(cls) && !s.inst.renderTemplates) ==>
              s.world.render == world.render && s.inst.trueRender == inst.trueRender
    ensures Before(trace, Ordinal(SetupPreHookCalled)) ==> Before(s.trace, Ordinal(BodyRan))
    ensures forall e :: Occurs(s.trace, e) <==> Occurs(trace, e) || SetupPerforms(signals, cls, inst, e)
    ensures PreHookReturns(cls) ==> Prepared(s.inst)
  {
    // lines 195-196
    var inst1 := AfterPreHook(cls, inst);
    var t1 := Log(trace, cls.setupPreHook.PreHook?, SetupPreHookCalled);
    if !PreHookReturns(cls) then
      Phase(inst1, world, t1, Some(HookRaised(SetupPre)))
    else
      // lines 198-204
      match Resolve(cls.flaskapp)
      case None =>
        Phase(inst1.(app := NoApp), world, t1, Some(FlaskappRaised))
      case Some(a) =>
        // lines 206-212
        var inst2 := inst1.(app := HasApp(Install(cls, a)), origResponseClass := Some(a.responseClass));
        var t2 := Log(t1, true, ResponseClassSwapped);
        // lines 218-219
        var patch := !inst2.renderTemplates;
        var (inst3, world3) := if patch then MonkeyPatch(inst2, world) else (inst2, world);
        var t3 := Log(t2, patch, RenderPatched);
        // lines 221-222
        var world4 := if signals then world3.(listenerConnected := true) else world3;
        var t4 := Log(t3, signals, ListenerConnected);
        // lines 224-225
        var t5 := Log(t4, cls.setupPostHook.Present?, SetupPostHookCalled);
        Phase(inst3, world4, t5, if cls.setupPostHook == Present(Raises) then Some(HookRaised(SetupPost)) else None)
  }

  // --- the test body and template rendering ---------------------------------

  /**
   One render through the `templating._render` slot. A genuine render function
   produces output; `_patched_render` (lines 141-149) returns `""`. Both send
   `template_rendered` when signals are available, and the connected listener
   `_on_template_render` appends the record.
   */
  function Render<V>(signals: bool, world: World, log: seq<RenderRecord<V>>, call: RenderRecord<V>)
    : (r: (RenderOutput, seq<RenderRecord<V>>))
    ensures signals && world.listenerConnected ==> r.1 == log + [call]
    ensures !(signals && world.listenerConnected) ==> r.1 == log
    ensures r.0 == EmptyString <==> world.render.PatchedRender?
    ensures world.render.TrueRender? ==> r.0 == RenderedBy(world.render.id, call.template)
  {
    var log' := if signals && world.listenerConnected
                then OnTemplateRender(log, call.template, call.context) else log;
    match world.render
    case PatchedRender => (EmptyString, log')
    case TrueRender(id) => (RenderedBy(id, call.template), log')
  }

  /** The renders of a test body, one after the other. */
  function RunRenders<V>(signals: bool, world: World, log: seq<RenderRecord<V>>, calls: seq<RenderRecord<V>>)
    : (r: (seq<RenderOutput>, seq<RenderRecord<V>>))
    decreases |calls|
    ensures |r.0| == |calls|
    ensures signals && world.listenerConnected ==> r.1 == log + calls
    ensures !(signals && world.listenerConnected) ==> r.1 == log
    ensures world.render.PatchedRender? ==> forall i :: 0 <= i < |r.0| ==> r.0[i] == EmptyString
    ensures world.render.TrueRender? ==>
              forall i :: 0 <= i < |r.0| ==> r.0[i] == RenderedBy(world.render.id, calls[i].template)
  {
    if |calls| == 0 then ([], log)
    else
      var (out, log1) := Render(signals, world, log, calls[0]);
      var (outs, log2) := RunRenders(signals, world, log1, calls[1..]);
      assert calls == [calls[0]] + calls[1..];
      ([out] + outs, log2)
  }

  // --- teardown ---------------------------------------------------------------

  /**
   `_post_teardown` gets past line 238: its pre-hook returns, `_ctx` exists
   (line 234), and `_orig_response_class` exists whenever `app` is an application.
   */
  predicate TeardownRestores<V>(cls: TestClass, inst: Instance<V>) {
    cls.teardownPreHook != Present(Raises) && Prepared(inst)
  }

  /** Step `e` is one that `_post_teardown` performs. */
  predicate TeardownPerforms<V>(signals: bool, cls: TestClass, inst: Instance<V>, e: Event) {
    match e
    case TeardownPreHookCalled => cls.teardownPreHook.Present?
    case ResponseClassRestored => TeardownRestores(cls, inst) && inst.app.HasApp?
    case ListenerDisconnected => TeardownRestores(cls, inst) && signals
    case RenderRestored => TeardownRestores(cls, inst) && inst.trueRender.Some?
    case TeardownPostHookCalled => TeardownRestores(cls, inst) && cls.teardownPostHook.Present?
    case _ => false
  }

  /**
   `_post_teardown`, lines 227-247. It extends `trace` as it goes: the
   pre-hook call, the response-class restore, the listener disconnection,
   the render restore and the post-hook call, each when it happens. A raising
   pre-hook, a missing `_ctx` (line 234) or a missing `_orig_response_class`
   (line 238) stops it before any restore.
   */
  function Teardown<V>(signals: bool, cls: TestClass, inst: Instance<V>, world: World, trace: Trace)
    : (s: Phase<V>)
    ensures s.inst.renderedTemplates == inst.renderedTemplates
    ensures s.inst.trueRender == inst.trueRender
    ensures s.inst.origResponseClass == inst.origResponseClass
    ensures s.inst.renderTemplates == inst.renderTemplates
    ensures s.raised == Some(HookRaised(TeardownPre)) <==> cls.teardownPreHook == Present(Raises)
    ensures cls.teardownPreHook != Present(Raises) && !Prepared(inst) ==> s.raised == Some(Builtin(AttributeError))
    ensures !TeardownRestores(cls, inst) ==> s.world == world && s.inst == inst && s.raised.Some?
    ensures TeardownRestores(cls, inst) ==>
              && s.inst.app == (match inst.app
                                case HasApp(a) => HasApp(a.(responseClass := inst.origResponseClass.value))
                                case _ => inst.app)
              && s.world.listenerConnected == (world.listenerConnected && !signals)
              && s.world.render == inst.trueRender.GetOr(world.render)
              && (s.raised.None? <==> cls.teardownPostHook != Present(Raises))
              && (s.raised.Some? ==> s.raised == Some(HookRaised(TeardownPost)))
    ensures Before(trace, Ordinal(TeardownPreHookCalled)) ==> Before(s.trace, Ordinal(PostTeardownSignal))
    ensures forall e :: Occurs(s.trace, e) <==> Occurs(trace, e) || TeardownPerforms(signals, cls, inst, e)
  {
    // lines 231-232
    var t1 := Log(trace, cls.teardownPreHook.Present?, TeardownPreHookCalled);
    if cls.teardownPreHook == Present(Raises) then
      Phase(inst, world, t1, Some(HookRaised(TeardownPre)))
    else if !Prepared(inst) then
      // line 234 reads `self._ctx`, line 238 `self._orig_response_class`: one was never assigned
      Phase(inst, world, t1, Some(Builtin(AttributeError)))
    else
      Restore(signals, cls, inst, world, t1)
  }

  /**
   Lines 237-247, the part of `_post_teardown` after its pre-hook returned
   and the attributes it reads exist: the response-class restore, the
   listener disconnection, the render restore and the post-hook call, each
   appended to `trace` when it happens.
   */
  function Restore<V>(signals: bool, cls: TestClass, inst: Instance<V>, world: World, trace: Trace)
    : (s: Phase<V>)
    requires TeardownRestores(cls, inst)
    ensures s.inst == inst.(app := s.inst.app)
    ensures s.inst.app == (match inst.app
                           case HasApp(a) => HasApp(a.(responseClass := inst.origResponseClass.value))
                           case _ => inst.app)
    ensures s.world.listenerConnected == (world.listenerConnected && !signals)
    ensures s.world.render == inst.trueRender.GetOr(world.render)
    ensures s.raised.None? <==> cls.teardownPostHook != Present(Raises)
    ensures s.raised.Some? ==> s.raised == Some(HookRaised(TeardownPost))
    ensures Before(trace, Ordinal(ResponseClassRestored)) ==> Before(s.trace, Ordinal(PostTeardownSignal))
    ensures forall e :: Occurs(s.trace, e) <==>
              Occurs(trace, e) || (e != TeardownPreHookCalled && TeardownPerforms(signals, cls, inst, e))
  {
    // lines 237-238
    var inst1 := match inst.app
      case HasApp(a) => inst.(app := HasApp(a.(responseClass := inst.origResponseClass.value)))
      case _ => inst;
    var t2 := Log(trace, inst.app.HasApp?, ResponseClassRestored);
    // lines 240-241
    var world1 := if signals then world.(listenerConnected := false) else world;
    var t3 := Log(t2, signals, ListenerDisconnected);
    // lines 243-244
    var world2 := match inst.trueRender
      case Some(f) => world1.(render := f)
      case None => world1;
    var t4 := Log(t3, inst.trueRender.Some?, RenderRestored);
    // lines 246-247
    var t5 := Log(t4, cls.teardownPostHook.Present?, TeardownPostHookCalled);
    Phase(inst1, world2, t5,
          if cls.teardownPostHook == Present(Raises) then Some(HookRaised(TeardownPost)) else None)
  }

  // --- __call__ -----------------------------------------------------------------

  /** Step `e` is one that the `try` block of `__call__` performs, lines 179-185. */
  predicate TryPerforms(signals: bool, cls: TestClass, e: Event) {
    match e
    case PreSetupSignal => signals
    case SetupPreHookCalled => cls.setupPreHook.PreHook?
    case ResponseClassSwapped => ReachesInstall(cls)
    case RenderPatched => ReachesInstall(cls) && PatchRequested(cls)
    case ListenerConnected => ReachesInstall(cls) && signals
    case SetupPostHookCalled => ReachesInstall(cls) && cls.setupPostHook.Present?
    case BodyRan => SetupSucceeds(cls)
    case _ => false
  }

  /**
   Lines 179-184: the render log is reset, `render_templates` set,
   `pre_setup_signal` sent, and `_pre_setup` run.
   */
  function Begin<V>(signals: bool, cls: TestClass, inst: Instance<V>, world: World): (s: Phase<V>)
    ensures s.raised.None? <==> SetupSucceeds(cls)
    ensures s.inst.renderedTemplates == []
    ensures s.world.listenerConnected == ((signals && ReachesInstall(cls)) || world.listenerConnected)
    ensures PreHookReturns(cls) ==> Prepared(s.inst)
    ensures ReachesInstall(cls) ==> s.inst.app == HasApp(Install(cls, Resolve(cls.flaskapp).value))
    ensures !ReachesInstall(cls) ==> s.inst.app == (if PreHookReturns(cls) then NoApp else inst.app)
    ensures ReachesInstall(cls) && PatchRequested(cls) ==>
              s.inst.trueRender == Some(world.render) && s.world.render == PatchedRender
    ensures !(ReachesInstall(cls) && PatchRequested(cls)) ==>
              s.inst.trueRender == inst.trueRender && s.world.render == world.render
    ensures Before(s.trace, Ordinal(BodyRan))
    ensures forall e :: Occurs(s.trace, e) <==> e != BodyRan && TryPerforms(signals, cls, e)
  {
    // lines 179-182
    var start := inst.(renderedTemplates := [], renderTemplates := true);
    // lines 183-184
    PreSetup(signals, cls, start, world, Log(Start, signals, PreSetupSignal))
  }

  /**
   Lines 179-185, up to the `finally`: `Begin`, then the test body when
   `_pre_setup` returned. The result's `raised` is the exception leaving
   the `try` block, if any.
   */
  function Exercise<V>(signals: bool, cls: TestClass, inst: Instance<V>, world: World, body: Body<V>)
    : (m: Run<V>)
    ensures m.inst.renderedTemplates ==
              if signals && SetupSucceeds(cls) then body.renders else []
    ensures |m.outputs| == if SetupSucceeds(cls) then |body.renders| else 0
    ensures SetupSucceeds(cls) ==> m.raised == if body.outcome == RaisesError then Some(BodyRaised) else None
    ensures !SetupSucceeds(cls) ==> m.raised.Some? && m.raised != Some(BodyRaised)
    ensures PreHookReturns(cls) ==> Prepared(m.inst)
    ensures m.world.listenerConnected == ((signals && ReachesInstall(cls)) || world.listenerConnected)
    ensures ReachesInstall(cls) ==> m.inst.app == HasApp(Install(cls, Resolve(cls.flaskapp).value))
    ensures !ReachesInstall(cls) ==> m.inst.app == (if PreHookReturns(cls) then NoApp else inst.app)
    ensures ReachesInstall(cls) && PatchRequested(cls) ==>
              m.inst.trueRender == Some(world.render) && m.world.render == PatchedRender
    ensures !(ReachesInstall(cls) && PatchRequested(cls)) ==>
              m.inst.trueRender == inst.trueRender && m.world.render == world.render
    ensures Before(m.trace, Ordinal(TeardownPreHookCalled))
    ensures forall e :: Occurs(m.trace, e) <==> TryPerforms(signals, cls, e)
  {
    var setup := Begin(signals, cls, inst, world);
    // line 185
    var bodyRan := setup.raised.None?;
    var (outputs, log) :=
      if bodyRan then RunRenders(signals, setup.world, setup.inst.renderedTemplates, body.renders)
      else ([], setup.inst.renderedTemplates);
    var raised := if bodyRan && body.outcome == RaisesError then Some(BodyRaised) else setup.raised;
    Run(setup.inst.(renderedTemplates := log), setup.world, Log(setup.trace, bodyRan, BodyRan), outputs, raised)
  }

  /**
   Lines 186-189: `_post_teardown` runs in the `finally`, and an exception
   from it replaces the one leaving the `try` block; `post_teardown_signal`
   is sent only when nothing propagated.
   */
  function Finish<V>(signals: bool, cls: TestClass, m: Run<V>): (r: Run<V>)
    ensures r.inst.renderedTemplates == m.inst.renderedTemplates
    ensures r.outputs == m.outputs
    ensures Before(m.trace, Ordinal(TeardownPreHookCalled)) ==> Before(r.trace, EventCount)
    ensures forall e :: Occurs(r.trace, e) <==>
              || Occurs(m.trace, e)
              || TeardownPerforms(signals, cls, m.inst, e)
              || (e == PostTeardownSignal && signals && r.raised.None?)
  {
    // lines 186-187
    var down := Teardown(signals, cls, m.inst, m.world, m.trace);
    var raised := if down.raised.Some? then down.raised else m.raised;
    // lines 188-189
    Run(down.inst, down.world, Log(down.trace, signals && raised.None?, PostTeardownSignal), m.outputs, raised)
  }

  /**
   `TestCase.__call__`, lines 174-189: the `try` block, then the `finally`
   and the closing signal. The trace starts empty and every step appends
   itself when it runs.
   */
  function Call<V>(signals: bool, cls: TestClass, inst: Instance<V>, world: World, body: Body<V>)
    : (r: Run<V>)
    ensures r.inst.renderedTemplates ==
              if signals && SetupSucceeds(cls) then body.renders else []
  {
    Finish(signals, cls, Exercise(signals, cls, inst, world, body))
  }

  // --- what __call__ guarantees ---------------------------------------------------

  /**
   Whatever the body does, a fresh test instance leaves the process-wide
   slots as it found them, unless the teardown pre-hook raises.
   */
  lemma CallRestoresSlots<V>(signals: bool, cls: TestClass, inst: Instance<V>, world: World, body: Body<V>)
    requires FreshInstance(inst) && !world.listenerConnected
    requires cls.teardownPreHook != Present(Raises)
    ensures Call(signals, cls, inst, world, body).world == world
  {
  }

  /**
   Once an application was resolved, teardown gives it back its original
   response class and disconnects the listener; the render slot gets back the
   function saved in `_true_render`, which, when this run did not patch, is
   whatever an earlier run on the same instance saved.
   */
  lemma CallRestoresApp<V>(signals: bool, cls: TestClass, inst: Instance<V>, world: World, body: Body<V>)
    requires ReachesInstall(cls) && cls.teardownPreHook != Present(Raises)
    ensures var r := Call(signals, cls, inst, world, body);
      && r.inst.app.HasApp?
      && r.inst.app.app.responseClass == Resolve(cls.flaskapp).value.responseClass
      && r.world.listenerConnected == (world.listenerConnected && !signals)
      && r.world.render == if PatchRequested(cls) then world.render else inst.trueRender.GetOr(world.render)
  {
  }

  /** A raising teardown pre-hook skips every restoration: the installations leak. */
  lemma CallLeaksWhenTeardownHookRaises<V>(signals: bool, cls: TestClass, inst: Instance<V>, world: World, body: Body<V>)
    requires ReachesInstall(cls) && cls.teardownPreHook == Present(Raises)
    ensures var r := Call(signals, cls, inst, world, body);
      && r.inst.app.HasApp?
      && r.inst.app.app.responseClass == TestResponse(Resolve(cls.flaskapp).value.responseClass)
      && r.world.listenerConnected == (signals || world.listenerConnected)
      && (PatchRequested(cls) ==> r.world.render == PatchedRender)
      && r.raised == Some(HookRaised(TeardownPre))
  {
  }

  /** The `test_client_class` override of line 211 is never undone. */
  lemma CallKeepsClientOverride<V>(signals: bool, cls: TestClass, inst: Instance<V>, world: World, body: Body<V>)
    requires ReachesInstall(cls) && cls.testClientClass.Some?
    ensures Call(signals, cls, inst, world, body).inst.app.app.testClientClass == cls.testClientClass.value
  {
  }

  /**
   Nothing propagates exactly when setup, the body and both teardown hooks
   return; an exception escaping the body is never swallowed, but one from
   `_post_teardown` replaces it. A failing test does not raise here: `run`
   records it in `result`.
   */
  lemma CallPropagates<V>(signals: bool, cls: TestClass, inst: Instance<V>, world: World, body: Body<V>)
    ensures var r := Call(signals, cls, inst, world, body);
      && (r.raised.None? <==>
            SetupSucceeds(cls) && body.outcome == Succeeds
            && cls.teardownPreHook != Present(Raises) && cls.teardownPostHook != Present(Raises))
      && ((SetupSucceeds(cls) && body.outcome == RaisesError && cls.teardownPreHook != Present(Raises)
           && cls.teardownPostHook != Present(Raises)) ==> r.raised == Some(BodyRaised))
  {
  }

  /**
   When `_pre_setup` raises after its pre-hook returned and both teardown
   hooks return, that exception is what propagates: the failing `flaskapp`
   factory, or `setup_post_hook`.
   */
  lemma CallReportsSetupError<V>(signals: bool, cls: TestClass, inst: Instance<V>, world: World, body: Body<V>)
    requires PreHookReturns(cls) && !SetupSucceeds(cls)
    requires cls.teardownPreHook != Present(Raises) && cls.teardownPostHook != Present(Raises)
    ensures Call(signals, cls, inst, world, body).raised ==
              if Resolve(cls.flaskapp).None? then Some(FlaskappRaised) else Some(HookRaised(SetupPost))
  {
  }

  /**
   On a fresh instance an exception of `setup_pre_hook` is lost: line 198
   never ran, so `_post_teardown` fails on `self._ctx` at line 234 and its
   `AttributeError` replaces the hook's exception (Python 2 keeps no chain).
   */
  lemma CallMasksSetupPreHookError<V>(signals: bool, cls: TestClass, inst: Instance<V>, world: World, body: Body<V>)
    requires FreshInstance(inst) && !PreHookReturns(cls)
    requires cls.teardownPreHook != Present(Raises)
    ensures Call(signals, cls, inst, world, body).raised == Some(Builtin(AttributeError))
  {
  }

  /**
   With `app` and `_ctx` assigned before `setup_pre_hook` runs, as line 198
   evidently means them to be, an exception of that hook propagates when
   both teardown hooks return.
   */
  lemma CallReportsSetupPreHookError<V>(signals: bool, cls: TestClass, inst: Instance<V>, world: World, body: Body<V>)
    requires inst.app == NoApp && !PreHookReturns(cls)
    requires cls.teardownPreHook != Present(Raises) && cls.teardownPostHook != Present(Raises)
    ensures Call(signals, cls, inst, world, body).raised == Some(HookRaised(SetupPre))
  {
  }

  /** A raising `teardown_pre_hook` is what propagates, whatever happened before it. */
  lemma CallReportsTeardownPreHookError<V>(signals: bool, cls: TestClass, inst: Instance<V>, world: World, body: Body<V>)
    requires cls.teardownPreHook == Present(Raises)
    ensures Call(signals, cls, inst, world, body).raised == Some(HookRaised(TeardownPre))
  {
  }

  /**
   The body's renders go through the slot setup left: when `setup_pre_hook`
   turned `render_templates` off every render returns `""`, otherwise each
   one is a real render by the function in the slot.
   */
  lemma CallRenderOutputs<V>(signals: bool, cls: TestClass, inst: Instance<V>, world: World, body: Body<V>)
    ensures var r := Call(signals, cls, inst, world, body);
      && |r.outputs| == (if SetupSucceeds(cls) then |body.renders| else 0)
      && (SetupSucceeds(cls) && PatchRequested(cls) ==>
            forall i :: 0 <= i < |r.outputs| ==> r.outputs[i] == EmptyString)
      && (SetupSucceeds(cls) && !PatchRequested(cls) && world.render.TrueRender? ==>
            forall i :: 0 <= i < |r.outputs| ==>
              r.outputs[i] == RenderedBy(world.render.id, body.renders[i].template))
  {
  }

  // --- the trace of __call__ ----------------------------------------------------

  /** `pre_setup_signal` is sent exactly when signals are available. */
  lemma CallSendsPreSetupSignal<V>(signals: bool, cls: TestClass, inst: Instance<V>, world: World, body: Body<V>)
    ensures var t := Call(signals, cls, inst, world, body).trace;
      Occurs(t, PreSetupSignal) <==> signals
  {
  }

  /** The test body runs exactly when `_pre_setup` returned. */
  lemma CallRunsBody<V>(signals: bool, cls: TestClass, inst: Instance<V>, world: World, body: Body<V>)
    ensures var t := Call(signals, cls, inst, world, body).trace;
      Occurs(t, BodyRan) <==> SetupSucceeds(cls)
  {
  }

  /** `setup_pre_hook` is called exactly when the class defines it. */
  lemma CallCallsSetupPreHook<V>(signals: bool, cls: TestClass, inst: Instance<V>, world: World, body: Body<V>)
    ensures var t := Call(signals, cls, inst, world, body).trace;
      Occurs(t, SetupPreHookCalled) <==> cls.setupPreHook.PreHook?
  {
  }

  /** `setup_post_hook` is called exactly when it exists and an application was resolved. */
  lemma CallCallsSetupPostHook<V>(signals: bool, cls: TestClass, inst: Instance<V>, world: World, body: Body<V>)
    ensures var t := Call(signals, cls, inst, world, body).trace;
      Occurs(t, SetupPostHookCalled) <==> ReachesInstall(cls) && cls.setupPostHook.Present?
  {
  }

  /** The response class is swapped exactly when an application was resolved. */
  lemma CallSwapsResponseClass<V>(signals: bool, cls: TestClass, inst: Instance<V>, world: World, body: Body<V>)
    ensures var t := Call(signals, cls, inst, world, body).trace;
      Occurs(t, ResponseClassSwapped) <==> ReachesInstall(cls)
  {
  }

  /**
   `render_template` is patched exactly when an application was resolved and
   `setup_pre_hook` turned `render_templates` off.
   */
  lemma CallPatchesRender<V>(signals: bool, cls: TestClass, inst: Instance<V>, world: World, body: Body<V>)
    ensures var t := Call(signals, cls, inst, world, body).trace;
      Occurs(t, RenderPatched) <==> ReachesInstall(cls) && PatchRequested(cls)
  {
  }

  /**
   The listener is connected exactly when an application was resolved and
   signals are available.
   */
  lemma CallConnectsListener<V>(signals: bool, cls: TestClass, inst: Instance<V>, world: World, body: Body<V>)
    ensures var t := Call(signals, cls, inst, world, body).trace;
      Occurs(t, ListenerConnected) <==> ReachesInstall(cls) && signals
  {
  }

  /** `teardown_pre_hook` is called exactly when it exists, whatever happened before. */
  lemma CallCallsTeardownPreHook<V>(signals: bool, cls: TestClass, inst: Instance<V>, world: World, body: Body<V>)
    ensures var t := Call(signals, cls, inst, world, body).trace;
      Occurs(t, TeardownPreHookCalled) <==> cls.teardownPreHook.Present?
  {
  }

  /** `post_teardown_signal` is sent exactly when signals are available and nothing propagated. */
  lemma CallSendsPostTeardownSignal<V>(signals: bool, cls: TestClass, inst: Instance<V>, world: World, body: Body<V>)
    ensures var r := Call(signals, cls, inst, world, body);
      Occurs(r.trace, PostTeardownSignal) <==> signals && r.raised.None?
  {
  }

  /**
   For a fresh instance whose teardown pre-hook returns, the response class
   is restored exactly when an application was resolved.
   */
  lemma CallRestoresResponseClass<V>(signals: bool, cls: TestClass, inst: Instance<V>, world: World, body: Body<V>)
    requires FreshInstance(inst) && cls.teardownPreHook != Present(Raises)
    ensures var t := Call(signals, cls, inst, world, body).trace;
      Occurs(t, ResponseClassRestored) <==> ReachesInstall(cls)
  {
  }

  /**
   For a fresh instance whose teardown pre-hook returns, the listener is
   disconnected whenever signals are available and `setup_pre_hook` returned,
   even when `flaskapp` raised before it was connected.
   */
  lemma CallDisconnectsListener<V>(signals: bool, cls: TestClass, inst: Instance<V>, world: World, body: Body<V>)
    requires FreshInstance(inst) && cls.teardownPreHook != Present(Raises)
    ensures var t := Call(signals, cls, inst, world, body).trace;
      Occurs(t, ListenerDisconnected) <==> PreHookReturns(cls) && signals
  {
  }

  /**
   For a fresh instance whose teardown pre-hook returns, `render_template` is
   restored exactly when it was patched.
   */
  lemma CallRestoresRender<V>(signals: bool, cls: TestClass, inst: Instance<V>, world: World, body: Body<V>)
    requires FreshInstance(inst) && cls.teardownPreHook != Present(Raises)
    ensures var t := Call(signals, cls, inst, world, body).trace;
      Occurs(t, RenderRestored) <==> ReachesInstall(cls) && PatchRequested(cls)
  {
  }

  /**
   For a fresh instance whose teardown pre-hook returns, `teardown_post_hook`
   is called exactly when it exists and `setup_pre_hook` returned.
   */
  lemma CallCallsTeardownPostHook<V>(signals: bool, cls: TestClass, inst: Instance<V>, world: World, body: Body<V>)
    requires FreshInstance(inst) && cls.teardownPreHook != Present(Raises)
    ensures var t := Call(signals, cls, inst, world, body).trace;
      Occurs(t, TeardownPostHookCalled) <==> PreHookReturns(cls) && cls.teardownPostHook.Present?
  {
  }

  /**
   Every step appends itself as it runs, and `_pre_setup`, the body and
   `_post_teardown` run one after the other, so the trace is strictly
   ascending in program order.
   */
  lemma {:induction false} CallTraceAscends<V>(signals: bool, cls: TestClass, inst: Instance<V>, world: World, body: Body<V>)
    ensures Before(Call(signals, cls, inst, world, body).trace, EventCount)
  {
  }

  /**
   The sequence of an ascending trace is in program order, starts with the
   pre-setup signal exactly when that signal is recorded, and ends with the
   post-teardown signal whenever it holds it.
   */
  lemma {:induction false} AscendingShape(t: Trace)
    requires Before(t, EventCount)
    ensures var s := Events(t);
      && InProgramOrder(s)
      && (Occurs(t, PreSetupSignal) <==> |s| > 0 && s[0] == PreSetupSignal)
      && (PostTeardownSignal in s ==> s[|s| - 1] == PostTeardownSignal)
  {
    var s := Events(t);
    BeforeInOrder(t, EventCount);
    OccursInEvents(t, PreSetupSignal);
    if PreSetupSignal in s {
      assert forall j :: 0 < j < |s| ==> Ordinal(s[0]) < Ordinal(s[j]);
      var i :| 0 <= i < |s| && s[i] == PreSetupSignal;
      assert i == 0;
    }
    if PostTeardownSignal in s {
      assert forall j :: 0 <= j < |s| - 1 ==> Ordinal(s[j]) < Ordinal(s[|s| - 1]);
      var i :| 0 <= i < |s| && s[i] == PostTeardownSignal;
      assert i == |s| - 1;
    }
  }

  /**
   The order `__call__` promises: every step at most once and in program
   order; `pre_setup_signal` first exactly when signals are available;
   `post_teardown_signal`, when sent, last.
   */
  lemma {:induction false} CallTraceOrder<V>(signals: bool, cls: TestClass, inst: Instance<V>, world: World, body: Body<V>)
    ensures var s := Events(Call(signals, cls, inst, world, body).trace);
      && InProgramOrder(s)
      && (signals <==> |s| > 0 && s[0] == PreSetupSignal)
      && (PostTeardownSignal in s ==> s[|s| - 1] == PostTeardownSignal)
  {
    var t := Call(signals, cls, inst, world, body).trace;
    CallTraceAscends(signals, cls, inst, world, body);
    CallSendsPreSetupSignal(signals, cls, inst, world, body);
    AscendingShape(t);
  }

  /**
   Installations and restorations pair up for a fresh instance whatever the
   body does: the response class is restored exactly when it was swapped,
   the render function exactly when it was patched, and a connected
   listener is disconnected.
   */
  lemma {:induction false} CallInstallsPaired<V>(signals: bool, cls: TestClass, inst: Instance<V>, world: World, body: Body<V>)
    requires FreshInstance(inst)
    requires cls.teardownPreHook != Present(Raises)
    ensures var t := Call(signals, cls, inst, world, body).trace;
      && (Occurs(t, ResponseClassSwapped) <==> Occurs(t, ResponseClassRestored))
      && (Occurs(t, RenderPatched) <==> Occurs(t, RenderRestored))
      && (Occurs(t, ListenerConnected) ==> Occurs(t, ListenerDisconnected))
  {
    CallSwapsResponseClass(signals, cls, inst, world, body);
    CallRestoresResponseClass(signals, cls, inst, world, body);
    CallPatchesRender(signals, cls, inst, world, body);
    CallRestoresRender(signals, cls, inst, world, body);
    CallConnectsListener(signals, cls, inst, world, body);
    CallDisconnectsListener(signals, cls, inst, world, body);
  }
}

=== FILE: outcomes.dfy ===
/**
 Small failure-carrying datatypes shared by the rest of the model. A Python
 call that either returns a value or raises is modelled as a `Result`; an
 assertion helper that either returns normally or raises is an `Outcome`.
 */
module Outcomes {

  /** `None` stands for Python's `None`; `Some(v)` for a present value. */
  datatype Option<+T> = None | Some(value: T) {
    function GetOr(default: T): T {
      match this
      case Some(v) => v
      case None => default
    }
  }

  /** A call that returns `value` (`Ok`) or raises `error` (`Err`). */
  datatype Result<+T, +E> = Ok(value: T) | Err(error: E)

  /** A call whose only observable effect is to return normally or raise. */
  datatype Outcome<+E> = Pass | Fail(error: E)

  /**
   The Python exception classes the library raises or lets escape: the
   built-in ones and the module's own `ContextVariableDoesNotExist`.
   */
  datatype PyError =
    | AssertionError
    | AttributeError
    | RuntimeError
    | TypeError
    | ValueError
    | ContextVariableDoesNotExist
}

=== FILE: templates.dfy ===
/**
 The render log of a test case (`rendered_templates`) and the three queries
 over it: `assertTemplateRendered`, `get_template_context` and
 `assertTemplateContext`. Each query first checks the module-level
 `signals_available` flag and raises `RuntimeError` when it is false.
 Context values have an arbitrary type `V`, compared with Dafny's equality.
 */
module Templates {
  import opened Outcomes

  /** A template object; a template loaded from a string has no name (`None`). */
  datatype Template = Template(name: Option<string>)

  /** One element of `rendered_templates`: the pair appended by `_on_template_render`. */
  datatype RenderRecord<V> = RenderRecord(template: Template, context: map<string, V>)

  /** `_on_template_render`: the listener appends one record at the end of the log. */
  function OnTemplateRender<V>(log: seq<RenderRecord<V>>, template: Template, context: map<string, V>)
    : (r: seq<RenderRecord<V>>)
    ensures |r| == |log| + 1
    ensures r[..|log|] == log
    ensures r[|log|] == RenderRecord(template, context)
  {
    log + [RenderRecord(template, context)]
  }

  /** Some record of `log` was rendered from a template called `name`. */
  ghost predicate WasRendered<V>(log: seq<RenderRecord<V>>, name: string) {
    exists i :: 0 <= i < |log| && log[i].template.name == Some(name)
  }

  /** The scan of `assertTemplateRendered` (lines 314-316), front to back. */
  function ScanRendered<V>(log: seq<RenderRecord<V>>, name: string): (found: bool)
    ensures found <==> WasRendered(log, name)
  {
    if |log| == 0 then false
    else if log[0].template.name == Some(name) then true
    else
      var rest := ScanRendered(log[1..], name);
      assert forall i :: 1 <= i < |log| ==> log[i] == log[1..][i - 1];
      rest
  }

  /** `assertTemplateRendered(name)`. */
  function AssertTemplateRendered<V>(signals: bool, log: seq<RenderRecord<V>>, name: string)
    : (v: Outcome<PyError>)
    ensures !signals ==> v == Fail(RuntimeError)
    ensures v.Pass? <==> signals && WasRendered(log, name)
    ensures v.Fail? ==> v.error == RuntimeError || v.error == AssertionError
    ensures signals && !WasRendered(log, name) ==> v == Fail(AssertionError)
  {
    if !signals then Fail(RuntimeError)
    else if ScanRendered(log, name) then Pass
    else Fail(AssertionError)
  }

  /** Index `i` holds the earliest record whose context defines `name`. */
  ghost predicate EarliestWith<V>(log: seq<RenderRecord<V>>, name: string, i: int) {
    && 0 <= i < |log|
    && name in log[i].context
    && forall j :: 0 <= j < i ==> name !in log[j].context
  }

  /** No record of `log` defines `name`. */
  ghost predicate NoneWith<V>(log: seq<RenderRecord<V>>, name: string) {
    forall i :: 0 <= i < |log| ==> name !in log[i].context
  }

  /** The first-match scan of `get_template_context` (lines 333-335), as an index. */
  function FirstWith<V>(log: seq<RenderRecord<V>>, name: string): (r: Option<nat>)
    ensures r.Some? ==> EarliestWith(log, name, r.value)
    ensures r.None? ==> NoneWith(log, name)
  {
    if |log| == 0 then None
    else if name in log[0].context then Some(0)
    else
      var rest := FirstWith(log[1..], name);
      assert forall i :: 1 <= i < |log| ==> log[i] == log[1..][i - 1];
      match rest
      case None => None
      case Some(k) => Some(k + 1)
  }

  /** There is at most one earliest record defining a name. */
  lemma EarliestUnique<V>(log: seq<RenderRecord<V>>, name: string, i: int, k: int)
    requires EarliestWith(log, name, i) && EarliestWith(log, name, k)
    ensures i == k
  {
  }

  /** `get_template_context(name)`. */
  function GetTemplateContext<V>(signals: bool, log: seq<RenderRecord<V>>, name: string)
    : (r: Result<V, PyError>)
    ensures !signals ==> r == Err(RuntimeError)
    ensures signals ==> (r.Err? <==> NoneWith(log, name))
    ensures signals && r.Err? ==> r.error == ContextVariableDoesNotExist
    ensures r.Ok? ==> exists i :: EarliestWith(log, name, i) && r.value == log[i].context[name]
  {
    if !signals then Err(RuntimeError)
    else
      match FirstWith(log, name)
      case Some(i) => Ok(log[i].context[name])
      case None => Err(ContextVariableDoesNotExist)
  }

  /** `assertTemplateContext(name, value)`: a missing variable becomes a test failure. */
  function AssertTemplateContext<V(==)>(signals: bool, log: seq<RenderRecord<V>>, name: string, value: V)
    : (v: Outcome<PyError>)
    ensures v != Fail(ContextVariableDoesNotExist)
    ensures v == Fail(RuntimeError) <==> !signals
    ensures v.Pass? <==>
              signals && exists i :: EarliestWith(log, name, i) && log[i].context[name] == value
    ensures signals && NoneWith(log, name) ==> v == Fail(AssertionError)
    ensures signals ==> v.Pass? || v == Fail(AssertionError)
  {
    var got := GetTemplateContext(signals, log, name);
    match got
    case Ok(found) =>
      if found == value then Pass
      else
        assert forall i :: EarliestWith(log, name, i) ==> log[i].context[name] == found by {
          forall i | EarliestWith(log, name, i)
            ensures log[i].context[name] == found
          {
            var k :| EarliestWith(log, name, k) && found == log[k].context[name];
            EarliestUnique(log, name, i, k);
          }
        }
        Fail(AssertionError)
    case Err(ContextVariableDoesNotExist) => Fail(AssertionError)
    case Err(e) => Fail(e)
  }

  /**
   Records added to the log after a variable was found do not change what
   `get_template_context` returns for it: the earliest match stays earliest.
   */
  lemma {:induction false} ContextStableUnderAppend<V>(
    signals: bool, log: seq<RenderRecord<V>>, more: seq<RenderRecord<V>>, name: string)
    requires GetTemplateContext(signals, log, name).Ok?
    ensures GetTemplateContext(signals, log + more, name) == GetTemplateContext(signals, log, name)
  {
    var r := GetTemplateContext(signals, log, name);
    var i :| EarliestWith(log, name, i) && r.value == log[i].context[name];
    var big := log + more;
    assert EarliestWith(big, name, i) by {
      forall j | 0 <= j < i ensures name !in big[j].context {
        assert big[j] == log[j];
      }
    }
    var r' := GetTemplateContext(signals, big, name);
    assert !NoneWith(big, name);
    var k :| EarliestWith(big, name, k) && r'.value == big[k].context[name];
    EarliestUnique(big, name, i, k);
  }

  /**
   Appending records never turns a successful `assertTemplateRendered` into a
   failure: the log only grows.
   */
  lemma {:induction false} RenderedStableUnderAppend<V>(
    signals: bool, log: seq<RenderRecord<V>>, more: seq<RenderRecord<V>>, name: string)
    requires AssertTemplateRendered(signals, log, name).Pass?
    ensures AssertTemplateRendered(signals, log + more, name).Pass?
  {
    var i :| 0 <= i < |log| && log[i].template.name == Some(name);
    assert (log + more)[i] == log[i];
  }
}

=== FILE: upload_fixtures.dfy ===
/**
 The upload fixtures `random_string` and `temphttpfile`. The random choice
 of each character is an input: `draws[k]` is the index into the alphabet
 that `random.choice` picks for the `k`-th character.
 */
module UploadFixtures {
  import opened Outcomes

  /** The `n` consecutive ASCII characters starting at `first`. */
  function CharRange(first: char, n: nat): (s: string)
    requires first as int + n <= 128
    ensures |s| == n
    ensures forall k :: 0 <= k < n ==> s[k] as int == first as int + k
  {
    seq(n, k requires 0 <= k < n => (first as int + k) as char)
  }

  /** Python 2's `string.letters` in the C locale: `a`-`z` then `A`-`Z`. */
  const Letters: string := CharRange('a', 26) + CharRange('A', 26)

  /** Python's `string.digits`: `0`-`9`. */
  const Digits: string := CharRange('0', 10)

  /** The pool `random_string` chooses from, line 447. */
  const Alphabet: string := Letters + Digits

  predicate IsAlphanumeric(c: char) {
    ('a' <= c <= 'z') || ('A' <= c <= 'Z') || ('0' <= c <= '9')
  }

  /** Every index a draw can take picks a letter or a digit. */
  predicate ValidDraws(draws: seq<nat>) {
    forall k :: 0 <= k < |draws| ==> draws[k] < |Alphabet|
  }

  /** The string a sequence of draws spells, one character per draw. */
  function Spell(draws: seq<nat>): (s: string)
    requires ValidDraws(draws)
    ensures |s| == |draws|
    ensures forall k :: 0 <= k < |s| ==> s[k] == Alphabet[draws[k]]
  {
    if |draws| == 0 then [] else Spell(draws[..|draws| - 1]) + [Alphabet[draws[|draws| - 1]]]
  }

  /** The alphabet is exactly the alphanumeric ASCII characters. */
  lemma {:induction false} AlphabetIsAlphanumeric(c: char)
    ensures c in Alphabet <==> IsAlphanumeric(c)
  {
    if IsAlphanumeric(c) {
      if 'a' <= c <= 'z' {
        assert Alphabet[c as int - 'a' as int] == c;
      } else if 'A' <= c <= 'Z' {
        assert Alphabet[26 + c as int - 'A' as int] == c;
      } else {
        assert Alphabet[52 + c as int - '0' as int] == c;
      }
    }
  }

  /** The position of an alphanumeric character in the alphabet. */
  function IndexOf(c: char): (i: nat)
    requires IsAlphanumeric(c)
    ensures i < |Alphabet| && Alphabet[i] == c
  {
    if 'a' <= c <= 'z' then c as int - 'a' as int
    else if 'A' <= c <= 'Z' then 26 + c as int - 'A' as int
    else 52 + c as int - '0' as int
  }

  /** Every alphanumeric string of any length is what some draws spell. */
  lemma {:induction false} EveryAlphanumericStringIsSpelled(target: string)
    requires forall k :: 0 <= k < |target| ==> IsAlphanumeric(target[k])
    ensures exists draws :: ValidDraws(draws) && Spell(draws) == target
  {
    var draws := seq(|target|, k requires 0 <= k < |target| => IndexOf(target[k]));
    assert ValidDraws(draws);
    assert Spell(draws) == target;
  }

  /**
   A Python 2 string: a byte string (`str`) or a text string (`unicode`).
   The module imports `unicode_literals`, so its own literals are text.
   */
  datatype PyStr = Bytes(chars: string) | Text(chars: string)

  /** The characters of `random_string(size)`: one per draw, none for a negative `size`. */
  function RandomChars(size: int, draws: seq<nat>): (s: string)
    requires ValidDraws(draws) && size <= |draws|
    ensures |s| == (if size < 0 then 0 else size)
    ensures forall k :: 0 <= k < |s| ==> s[k] == Alphabet[draws[k]]
    ensures forall k :: 0 <= k < |s| ==> IsAlphanumeric(s[k])
  {
    var chars := Spell(draws[..if size < 0 then 0 else size]);
    assert forall k :: 0 <= k < |chars| ==> chars[k] in Alphabet;
    forall k | 0 <= k < |chars| ensures IsAlphanumeric(chars[k]) {
      AlphabetIsAlphanumeric(chars[k]);
    }
    chars
  }

  /**
   `random_string`, lines 446-447, as written: the characters are joined with
   the literal `""`, which is text under `unicode_literals`, so the result is
   text even though every character comes from the byte strings of `string`.
   */
  function RandomStringAsWritten(size: int, draws: seq<nat>): (s: PyStr)
    requires ValidDraws(draws) && size <= |draws|
    ensures s.Text?
    ensures |s.chars| == (if size < 0 then 0 else size)
    ensures forall k :: 0 <= k < |s.chars| ==> s.chars[k] == Alphabet[draws[k]] && IsAlphanumeric(s.chars[k])
  {
    Text(RandomChars(size, draws))
  }

  /** `random_string` returning the byte string `temphttpfile` needs. */
  function RandomBytes(size: int, draws: seq<nat>): (s: PyStr)
    requires ValidDraws(draws) && size <= |draws|
    ensures s.Bytes?
    ensures |s.chars| == (if size < 0 then 0 else size)
    ensures forall k :: 0 <= k < |s.chars| ==> s.chars[k] == Alphabet[draws[k]] && IsAlphanumeric(s.chars[k])
  {
    Bytes(RandomChars(size, draws))
  }

  /** The `(file, filename, size)` tuple a test passes to the upload client. */
  datatype HttpFile = HttpFile(content: string, filename: Option<string>, size: nat)

  /** Python truthiness of the optional `size` argument. */
  predicate Truthy(size: Option<int>) {
    size.Some? && size.value != 0
  }

  /**
   Line 443 given the data: `BytesIO` of text raises `TypeError`, and so does
   `len(None)`; byte data becomes the fixture with its length as size.
   */
  function Wrap(filename: Option<string>, data: Option<PyStr>): (r: Result<HttpFile, PyError>)
    ensures r.Ok? <==> data.Some? && data.value.Bytes?
    ensures r.Err? ==> r.error == TypeError
    ensures r.Ok? ==>
              r.value.content == data.value.chars && r.value.filename == filename
              && r.value.size == |r.value.content|
  {
    match data
    case None => Err(TypeError)
    case Some(Text(_)) => Err(TypeError)
    case Some(Bytes(c)) => Ok(HttpFile(c, filename, |c|))
  }

  /**
   `temphttpfile`, lines 431-443, as written: missing data with a truthy
   `size` is generated by `random_string`, whose text result `BytesIO`
   rejects, so without data the call always raises.
   */
  function TempHttpFileAsWritten(filename: Option<string>, data: Option<PyStr>, size: Option<int>, draws: seq<nat>)
    : (r: Result<HttpFile, PyError>)
    requires ValidDraws(draws) && (size.Some? ==> size.value <= |draws|)
    ensures data.None? ==> r == Err(TypeError)
    ensures data.Some? ==> r == TempHttpFile(filename, data, size, draws)
  {
    if data.None? && Truthy(size) then Wrap(filename, Some(RandomStringAsWritten(size.value, draws)))
    else Wrap(filename, data)
  }

  /** `temphttpfile(size=3)` raises instead of returning three random bytes. */
  lemma TempHttpFileAsWrittenRejectsGeneratedData()
    ensures TempHttpFileAsWritten(None, None, Some(3), [0, 1, 2]) == Err(TypeError)
  {
  }

  /**
   `temphttpfile`, lines 431-443, with byte data generated. Missing data is
   generated when `size` is truthy (present and non-zero); missing data with
   a falsy `size` reaches `len(None)`. Given data is used as is, `size`
   ignored, and text data is rejected by `BytesIO`.
   */
  function TempHttpFile(filename: Option<string>, data: Option<PyStr>, size: Option<int>, draws: seq<nat>)
    : (r: Result<HttpFile, PyError>)
    requires ValidDraws(draws) && (size.Some? ==> size.value <= |draws|)
    ensures r.Err? <==> (data.None? && !Truthy(size)) || (data.Some? && data.value.Text?)
    ensures r.Ok? ==> r.value.filename == filename && r.value.size == |r.value.content|
    ensures data.Some? && data.value.Bytes? ==> r.Ok? && r.value.content == data.value.chars
    ensures data.None? && r.Ok? ==>
              && |r.value.content| == (if size.value < 0 then 0 else size.value)
              && forall k :: 0 <= k < |r.value.content| ==> IsAlphanumeric(r.value.content[k])
  {
    if data.None? && Truthy(size) then Wrap(filename, Some(RandomBytes(size.value, draws)))
    else Wrap(filename, data)
  }
}

=== FILE: urls.dfy ===
/**
 URL resolution for test requests: `TestCase.url_for` and `TestCase.open`
 (with its `get` shorthand). Flask's own `url_for` is not part of this model:
 the URL it builds is an input, and so is the application's `SERVER_NAME`.
 */
module Urls {
  import opened Outcomes

  /** `sep` occurs in `s` starting at index `i`. */
  predicate OccursAt(s: string, sep: string, i: int) {
    0 <= i && i + |sep| <= |s| && s[i..i + |sep|] == sep
  }

  /** `i` is the first index at or after `from` where `sep` occurs in `s`. */
  predicate FirstFrom(s: string, sep: string, from: int, i: int) {
    from <= i && OccursAt(s, sep, i) && forall j :: from <= j < i ==> !OccursAt(s, sep, j)
  }

  /** The first index at or after `from` where `sep` occurs in `s`, if any. */
  function FindFirst(s: string, sep: string, from: nat): (r: Option<nat>)
    decreases |s| - from
    ensures r.Some? ==> FirstFrom(s, sep, from, r.value)
    ensures r.None? ==> forall j :: from <= j ==> !OccursAt(s, sep, j)
  {
    if from + |sep| > |s| then None
    else if s[from..from + |sep|] == sep then Some(from)
    else FindFirst(s, sep, from + 1)
  }

  /** The three parts of Python's `str.partition`. */
  datatype Parts = Parts(pre: string, sep: string, post: string)

  /**
   Python's `str.partition(sep)`: split at the first occurrence of `sep`, or
   return `(s, "", "")` when there is none. An empty separator raises
   `ValueError`.
   */
  function Partition(s: string, sep: string): (r: Result<Parts, PyError>)
    ensures r.Err? <==> sep == []
    ensures r.Err? ==> r.error == ValueError
    ensures r.Ok? ==> r.value.pre + r.value.sep + r.value.post == s
    ensures r.Ok? && r.value.sep != [] ==> r.value.sep == sep && FirstFrom(s, sep, 0, |r.value.pre|)
    ensures r.Ok? && r.value.sep == [] ==>
              r.value == Parts(s, [], []) && forall j :: !OccursAt(s, sep, j)
  {
    if sep == [] then Err(ValueError)
    else
      match FindFirst(s, sep, 0)
      case None => Ok(Parts(s, [], []))
      case Some(i) =>
        assert s == s[..i] + s[i..i + |sep|] + s[i + |sep|..];
        Ok(Parts(s[..i], sep, s[i + |sep|..]))
  }

  /**
   What `url_for` returns: the bare URL string when `SERVER_NAME` is unset,
   otherwise a `(base, path)` pair whose base may be `None`.
   */
  datatype UrlForResult = Bare(url: string) | Split(base: Option<string>, path: string)

  /**
   `TestCase.url_for`, lines 264-280, given the URL Flask built and the
   configured `SERVER_NAME`. The URL is partitioned at the server name; an
   empty remainder gives `(None, pre)`, otherwise `(pre + name, path)`.
   */
  function UrlFor(url: string, serverName: Option<string>): (r: Result<UrlForResult, PyError>)
    ensures serverName.None? <==> r == Ok(Bare(url))
    ensures r.Err? <==> serverName == Some([])
    ensures r.Err? ==> r.error == ValueError
    ensures r.Ok? && serverName.Some? ==> r.value.Split?
  {
    match serverName
    case None => Ok(Bare(url))
    case Some(name) =>
      match Partition(url, name)
      case Err(e) => Err(e)
      case Ok(Parts(pre, found, path)) =>
        // `len(path) is 0`
        if |path| == 0 then Ok(Split(None, pre))
        else Ok(Split(Some(pre + found), path))
  }

  /**
   A `(base, path)` answer with a base splits the URL just after the first
   occurrence of the server name, and base and path put back together give
   the URL.
   */
  lemma {:induction false} UrlForSplitsAfterServerName(url: string, name: string)
    requires name != []
    requires UrlFor(url, Some(name)).Ok? && UrlFor(url, Some(name)).value.base.Some?
    ensures var r := UrlFor(url, Some(name)).value;
      && r.base.value + r.path == url
      && |r.path| > 0
      && |r.base.value| >= |name|
      && FirstFrom(url, name, 0, |r.base.value| - |name|)
  {
    var p := Partition(url, name).value;
    assert p.sep == name;
    assert (p.pre + p.sep) + p.post == url;
  }

  /**
   A `(None, pre)` answer arises exactly when the server name is missing from
   the URL or first occurs at its very end; `pre` is then the URL without
   that final server name.
   */
  lemma {:induction false} UrlForWithoutBase(url: string, name: string)
    requires name != []
    ensures var r := UrlFor(url, Some(name)).value;
      && (r.base.None? <==>
            (forall j :: !OccursAt(url, name, j)) || FirstFrom(url, name, 0, |url| - |name|))
      && ((forall j :: !OccursAt(url, name, j)) ==> r.path == url)
      && (FirstFrom(url, name, 0, |url| - |name|) ==> r.path + name == url)
  {
    var p := Partition(url, name).value;
    if p.sep != [] {
      assert p.pre + p.sep + p.post == url;
    }
  }

  /** The arguments `open` hands to the test client. */
  datatype Request = Request(baseUrl: Option<string>, url: string, followRedirects: bool)

  /**
   Line 287 as written: `base_url, url = self.url_for(...)`. A pair unpacks
   as intended, but the bare string returned without `SERVER_NAME` is
   unpacked character by character, which succeeds only for a string of
   exactly two characters and raises `ValueError` otherwise.
   */
  function UnpackAsWritten(r: UrlForResult): (t: Result<(Option<string>, string), PyError>)
    ensures r.Split? ==> t == Ok((r.base, r.path))
    ensures r.Bare? ==> (t.Ok? <==> |r.url| == 2)
    ensures r.Bare? && t.Ok? ==> t.value.0 == Some(r.url[..1]) && t.value.1 == r.url[1..]
  {
    match r
    case Split(b, p) => Ok((b, p))
    case Bare(u) => if |u| == 2 then Ok((Some(u[..1]), u[1..])) else Err(ValueError)
  }

  /** The evidently intended unpacking: a bare URL has no separate base. */
  function Unpack(r: UrlForResult): (t: (Option<string>, string))
    ensures r.Split? ==> t == (r.base, r.path)
    ensures r.Bare? ==> t == (None, r.url)
  {
    match r
    case Split(b, p) => (b, p)
    case Bare(u) => (None, u)
  }

  /**
   `TestCase.open` as written, lines 286-290: resolve the handler's URL,
   unpack it into base and path, and default `follow_redirects` to true.
   */
  function OpenAsWritten(url: string, serverName: Option<string>, followRedirects: Option<bool>)
    : (r: Result<Request, PyError>)
    ensures serverName.None? ==> (r.Ok? <==> |url| == 2)
    ensures serverName.Some? ==> r == Open(url, serverName, followRedirects)
    ensures r.Err? ==> r.error == ValueError
    ensures r.Ok? ==> r.value.followRedirects == followRedirects.GetOr(true)
  {
    match UrlFor(url, serverName)
    case Err(e) => Err(e)
    case Ok(u) =>
      match UnpackAsWritten(u)
      case Err(e) => Err(e)
      case Ok((base, path)) => Ok(Request(base, path, followRedirects.GetOr(true)))
  }

  /** Without `SERVER_NAME`, `open("/index")` raises instead of requesting `/index`. */
  lemma OpenAsWrittenFailsWithoutServerName()
    ensures OpenAsWritten("/index", None, None) == Err(ValueError)
  {
  }

  /** Without `SERVER_NAME`, a two-character URL is split into a one-character base and path. */
  lemma OpenAsWrittenSplitsTwoCharacterUrl()
    ensures OpenAsWritten("/a", None, None) == Ok(Request(Some("/"), "a", true))
  {
    assert "/a"[..1] == "/" && "/a"[1..] == "a";
  }

  /** `TestCase.open`, lines 286-290, with the intended unpacking. */
  function Open(url: string, serverName: Option<string>, followRedirects: Option<bool>)
    : (r: Result<Request, PyError>)
    ensures r.Err? <==> serverName == Some([])
    ensures r.Ok? ==> r.value.followRedirects == followRedirects.GetOr(true)
    ensures serverName.None? ==> r == Ok(Request(None, url, followRedirects.GetOr(true)))
  {
    match UrlFor(url, serverName)
    case Err(e) => Err(e)
    case Ok(u) =>
      var (base, path) := Unpack(u);
      Ok(Request(base, path, followRedirects.GetOr(true)))
  }

  /**
   With the intended unpacking, the request always addresses the URL Flask
   built: the base followed by the path is the whole URL; without a base the
   path is the URL minus the server name when that name first occurs at the
   URL's very end, and the URL itself otherwise.
   */
  lemma {:induction false} OpenAddressesUrl(url: string, serverName: Option<string>, followRedirects: Option<bool>)
    requires Open(url, serverName, followRedirects).Ok?
    ensures var q := Open(url, serverName, followRedirects).value;
      && (q.baseUrl.Some? ==> q.baseUrl.value + q.url == url)
      && (q.baseUrl.None? ==>
            if serverName.Some? && FirstFrom(url, serverName.value, 0, |url| - |serverName.value|)
            then q.url + serverName.value == url
            else q.url == url)
  {
    if serverName.Some? {
      var name := serverName.value;
      var r := UrlFor(url, serverName).value;
      var q := Open(url, serverName, followRedirects).value;
      assert q.baseUrl == r.base && q.url == r.path;
      if r.base.Some? {
        UrlForSplitsAfterServerName(url, name);
      } else {
        UrlForWithoutBase(url, name);
        if !FirstFrom(url, name, 0, |url| - |name|) {
          assert forall j :: !OccursAt(url, name, j);
        }
      }
    }
  }

  /**
   `TestCase.get`, lines 282-284, as written: `open` with method `GET`, so it
   inherits the unpacking of line 287 and, without `SERVER_NAME`, raises
   `ValueError` for every URL but a two-character one.
   */
  function Get(url: string, serverName: Option<string>, followRedirects: Option<bool>)
    : (r: Result<(string, Request), PyError>)
    ensures serverName.None? ==> (r.Ok? <==> |url| == 2)
    ensures serverName.Some? ==> r == GetIntended(url, serverName, followRedirects)
    ensures r.Err? ==> r.error == ValueError
    ensures r.Ok? ==> r.value.0 == "GET" && r.value.1.followRedirects == followRedirects.GetOr(true)
  {
    match OpenAsWritten(url, serverName, followRedirects)
    case Err(e) => Err(e)
    case Ok(q) => Ok(("GET", q))
  }

  /** Without `SERVER_NAME`, `get("/index")` raises instead of requesting `/index`. */
  lemma GetFailsWithoutServerName()
    ensures Get("/index", None, None) == Err(ValueError)
  {
  }

  /** `TestCase.get` on top of the `open` with the intended unpacking. */
  function GetIntended(url: string, serverName: Option<string>, followRedirects: Option<bool>)
    : (r: Result<(string, Request), PyError>)
    ensures r.Err? <==> serverName == Some([])
    ensures r.Err? ==> r.error == ValueError
    ensures serverName.None? ==> r == Ok(("GET", Request(None, url, followRedirects.GetOr(true))))
    ensures r.Ok? ==> r.value.0 == "GET" && r.value.1.followRedirects == followRedirects.GetOr(true)
  {
    match Open(url, serverName, followRedirects)
    case Err(e) => Err(e)
    case Ok(q) => Ok(("GET", q))
  }

  /**
   With the intended unpacking, `get` issues a `GET` for the URL Flask built:
   a base followed by the path gives back the whole URL.
   */
  lemma {:induction false} GetIntendedAddressesUrl(url: string, serverName: Option<string>, followRedirects: Option<bool>)
    requires GetIntended(url, serverName, followRedirects).Ok?
    ensures var (verb, q) := GetIntended(url, serverName, followRedirects).value;
      && verb == "GET"
      && (q.baseUrl.Some? ==> q.baseUrl.value + q.url == url)
      && (q.baseUrl.None? ==>
            if serverName.Some? && FirstFrom(url, serverName.value, 0, |url| - |serverName.value|)
            then q.url + serverName.value == url
            else q.url == url)
  {
    OpenAddressesUrl(url, serverName, followRedirects);
  }
}
